=== FILE: README.md ===
# X-Sheet content script: classification session model

A Dafny model of the decision logic in the browser content script of the
X-Sheet extension (`content.js`). The script watches the X/Twitter feed for
"like" controls and extracts the liked post. It then lets the user file the
post into one of their sheets through the X-Sheet API, keeping a cached login
verdict for the API key. The model recasts the DOM, `chrome.storage` and
`fetch` as abstract inputs:

- a post container is a record of the signals the extractor probes
  (`Extractor.PostContainer`);
- an ancestor chain is the sequence of tag names from the like button upward;
- processed marks are a set of element identities (`Watcher`);
- the stored API key is an optional string;
- every request's result is an `Http.Reply`: the transport threw, or the
  server answered with a status and a body that did or did not parse as JSON.

Every operation is a pure function. Its result lists the effects the script
would have: the new account record, whether a request was sent, the
notices and modals requested, and the marks set.

Modules: `Options`, `JsString` (the JavaScript `split`, `trim`, `/(\d+)$/` and
`||` semantics the script relies on), `Http`, `Extractor`, `Watcher`,
`Session`, `Api`, `LikeGuard`, `ClassificationUi`.

## Behaviour the code has that a reader may not expect

- The extractor can return a non-empty URL with an absent id. This happens
  with a `<time>` link that is not a status URL and a label that does not
  end in digits (`Extractor.UrlWithoutIdReachable`). What does hold is that
  any id lies within its URL, and an empty URL never carries a truthy id
  (`Extractor.Extract`).
- A missing `<time>` element makes `querySelector('time').closest` throw.
  The extractor then returns null even when the other signals are present.
- The like guard does not check the URL. A post with no URL still opens the
  modal (`LikeGuard.ModalOpensWithoutUrl`), and only `saveToSheet` refuses it.
- Saving through the modal sets no saved mark. Only the sheet-button path
  sets `data-xsheet-saved`. After a modal save, a later like click opens the
  modal again.
- `saveToSheetDirect` has no empty-URL check (`Api.DirectPostsEmptyUrl`).
- A 401 from `saveToSheetDirect` does not throw, so the post is marked as
  saved anyway (`ClassificationUi.UnauthorizedStillMarks`).
- A selection-modal request removes the first open modal and appends its own.
  It is not ignored. The removed modal can be of any kind, since the API-key
  entry and error modals share the same class. With one other modal open
  first, two like clicks still leave a single selection modal. Two selection
  modals stay open only when at least two other modals came first
  (`LikeGuard.EarlierModalsAbsorbRequests`). That happens with no key stored:
  each newly scanned like button's `addSheetClassificationUI` runs a login
  check, which reads the key and requests its own API-key entry modal
  (content.js:38, 714, 632, 387).
- Negative login verdicts are never cached. This holds whether the cause
  was a 401, another status, a bad payload or a throw
  (`Session.NegativeNeverCached`). A throw leaves `lastChecked` unchanged;
  every other fetched check sets it to the current time. A check without a
  token, or one answered from the cache, leaves it unchanged.

## Model

| member | source | states |
|---|---|---|
| `JsString.SplitSecond` | content.js:91 | `split('/status/')[1]`: absent exactly when the separator does not occur; otherwise the text after the first occurrence up to the next non-overlapping occurrence or the end |
| `JsString.Trim` | content.js:381 | the result is a slice of the input with only whitespace cut from both ends; it is empty exactly when the input is blank |
| `JsString.TrailingDigits` | content.js:107-109 | the capture of `/(\d+)$/`: absent exactly when the string does not end in a digit; otherwise the maximal run of digits that ends the string |
| `Extractor.Extract` | content.js:77-136 | null exactly when there is no `<time>`; text and author fall back to "" independently; an empty URL never has a truthy id; any id occurs within the URL |
| `Extractor.IdentityIdInUrl` | content.js:87-113 | whatever strategy decides, the id is a substring of the URL and an empty URL comes with a falsy id |
| `Extractor.TimeLinkTakesPriority` | content.js:87-101 | a non-empty `<time>` link makes the `/status/` link irrelevant; with a status id it fixes both id and URL |
| `Extractor.StatusLinkFallback` | content.js:94-101 | with no usable `<time>` link, the first `/status/` link gives the URL and the piece after `/status/` the id |
| `Extractor.AriaLabelFallback` | content.js:103-113 | when the id is still falsy, the label's trailing digits become the id and the URL is the canonical status URL, which splits back to the same id |
| `Extractor.CanonicalUrlRoundTrip` | content.js:110 | splitting the synthesised `https://twitter.com/i/status/<digits>` on `/status/` yields the digits |
| `Extractor.NoAriaFallbackKeepsLinkIdentity` | content.js:87-113 | when the link strategies leave a falsy id and the label has no trailing digits, the record keeps the link's URL and its id, which is the empty initial id or the link's status piece |
| `Extractor.TimeLinkWithoutStatusId` | content.js:87-113 | a non-empty `<time>` link with no truthy status piece and no label digits gives that link as URL; the id is absent exactly when the link has no `/status/` |
| `Extractor.NoSignalGivesEmptyIdentity` | content.js:84-113 | with no link and no trailing digits the record still exists, with empty URL and the empty initial id |
| `Extractor.UrlWithoutIdReachable` | content.js:88-113 | a concrete container whose record has a non-empty URL and an absent id |
| `Watcher.Scan` | content.js:23-40 | the new marks are the old ones plus every scanned button; exactly the unmarked buttons are attached, each once |
| `Watcher.Run` | content.js:23-40 | over any series of scans, no button is attached twice and none that was already marked; exactly the unmarked buttons of the batches are attached; the final marks are the initial ones plus every scanned button |
| `Watcher.ScanIdempotent` | content.js:27-32 | scanning the same buttons again attaches nothing and changes no mark |
| `Session.GetApiToken` | content.js:375-392 | a token exactly when the stored key is present and not blank; it is the trimmed key; the key-entry modal is requested exactly when there is none |
| `Session.CheckLoginStatus` | content.js:630-699 | without a token: identity cleared, no fetch, time kept. A fresh positive verdict skips the network; a negative one never does. The result is the logged-in flag, which is always fresh. The time stamp moves to now unless the fetch threw. Only a 401 requests the error modal |
| `Session.AccountInfoAfterCheck` | content.js:702-708 | the projected account view agrees with the check's result and is empty when logged out |
| `Session.LastCheckedMonotone` | content.js:641-688 | with a non-decreasing clock, `lastChecked` never decreases and never passes now |
| `Session.SuccessIsCached` | content.js:640-644 | after a fetched success, every call within five minutes returns true without a fetch and leaves the record unchanged |
| `Session.NegativeNeverCached` | content.js:642 | after any false result, the next call with a token fetches |
| `Session.FirstCheckFetches` | content.js:622-644 | from the initial record, the first call with a token fetches |
| `Api.LoadSheetList` | content.js:197-292 | no sheet request unless logged in; sheets are rendered, in server order, exactly for an ok JSON success with sheets; the auth modal appears exactly for a 401; everything else shows the retry UI |
| `Api.LoggedInImpliesToken` | content.js:204-215 | a positive login check implies the token re-read at line 211 is present |
| `Api.SaveToSheet` | content.js:295-358 | an empty URL fails before any key read or POST. With a URL the key is always read, and a missing key gives its error notice. A non-JSON body is an error whatever the status. 2xx gives the success notice and closes the modal. 401 only requests the auth modal. Other statuses show the server's error or the generic message |
| `Api.SaveToSheetDirect` | content.js:942-976 | any token sends the POST, even with an empty URL. It returns normally exactly on 2xx or 401. The auth modal is requested exactly on 401, and a success notice shown exactly on 2xx |
| `Api.DirectPostsEmptyUrl` | content.js:942-962 | an empty-URL post is sent by the direct path but not by the modal path |
| `Api.GetSheets` | content.js:771-800 | the sheets exactly for an ok JSON success with sheets; null for every failure; the key modal is requested when there is no token |
| `Api.ListingReadersAgree` | content.js:233-276 | once logged in, the modal renders a list exactly when `getSheets` returns the same list; a 401 is null for `getSheets` |
| `LikeGuard.HandleLikeButtonClick` | content.js:43-74 | the modal opens exactly when there is an article, no unlike control, no saved mark, no saved button in the UI and extraction succeeds; it then opens for the extracted record |
| `LikeGuard.UiCheckSubsumed` | content.js:52-67 | the classification-UI check never decides on its own, since its saved buttons are saved marks in the article |
| `LikeGuard.ModalOpensWithoutUrl` | content.js:69-73 | a post with no URL still opens the modal |
| `LikeGuard.ShowSheetSelectionModal` | content.js:139-144 | the first open modal is removed and the new selection modal is appended last |
| `LikeGuard.SecondRequestReplaces` | content.js:139-144 | starting with no modal open, two requests leave only the second post's modal open |
| `LikeGuard.EarlierModalsAbsorbRequests` | content.js:139-144 | one earlier modal of another kind absorbs the first of two requests; two earlier modals leave both selection modals open, in request order |
| `LikeGuard.SavedArticleNeverReopens` | content.js:52-56 | once the article carries a saved mark, any number of like clicks leaves the open modals unchanged |
| `ClassificationUi.FirstDivFrom` | content.js:763-765 | the first `DIV` at or after the start index, or none if there is none |
| `ClassificationUi.TargetDiv` | content.js:753-768 | the first `DIV` at index 4 or above in the ancestor chain; null exactly when there is none, including chains shorter than five |
| `ClassificationUi.AddClassificationUi` | content.js:711-750 | the UI is appended exactly when logged in, a target exists, it has no UI yet and the sheet list is non-empty; one button per sheet in server order |
| `ClassificationUi.SheetButtonClickAsWritten` | content.js:885-936 | as written: on an already-liked post a save that returned normally ends with the generic error notice and an unmarked sheet button |
| `ClassificationUi.LikedPostSaveReportsFailure` | content.js:901-903 | a concrete successful save on a liked post that shows the success notice and then the failure notice |
| `ClassificationUi.SheetButtonClick` | content.js:885-936 | not gated by earlier saves. The direct save is made for the extracted post, the clicked sheet and the reply, and its notices are the ones shown when it returns. The marks are set exactly when the direct save returned, a 401 included. A throw shows only the generic error. The synthetic like click re-enters the guard, which then opens no modal |
| `ClassificationUi.UnauthorizedStillMarks` | content.js:964-967 | a 401 from the direct save still marks the like control and the sheet button |
| `ClassificationUi.SavedByButtonNeverReopens` | content.js:901-909 | after a direct save returns on a post that was not liked, no number of further like clicks on that article opens a selection modal |
| `ClassificationUi.CorrectionOnlyAffectsLikedPosts` | content.js:901-915 | the corrected handler agrees with the handler as written on every post that is not already liked |

## Findings

| source | as written | input that shows it | evidently intended | confidence | as-written member | corrected member |
|---|---|---|---|---|---|---|
| content.js:901-903 | The sheet-button handler writes the saved mark on the looked-up like control before the null check on the next line. | A sheet button clicked on an already-liked post, whose like control is now the unlike control, with a save that succeeds. The lookup returns null and the write throws a TypeError. The handler then shows the generic failure after the success notice and never marks the sheet button. | Skip the mark and the synthetic click when there is no like control, and still mark the sheet button. | not executed; high | `ClassificationUi.SheetButtonClickAsWritten` (`ClassificationUi.LikedPostSaveReportsFailure`) | `ClassificationUi.SheetButtonClick` |

## Left out

- The MutationObserver wiring and start-up (content.js:2-20, 979-990): only the scan it triggers is modelled, as `Watcher.Scan` and `Watcher.Run`.
- Modal, notification, button, SVG and CSS construction and teardown, the 3-second notification timer, and the API-key entry, error and regenerate modals with their buttons (content.js:139-194 markup, 361-372, 395-615, 803-883). These are presentation; the model records only which modal or notice is requested.
- `chrome.storage.sync` reads and the key-entry modal's write (content.js:574-600): a read is the optional stored string passed in, and writes are not modelled.
- `fetch` is replaced by `Http.Reply`. Reading the body text of a reply is assumed not to throw.
- JSON bodies that parse to something other than an object (such as `null`, which would make `data.error` throw) are not modelled. A body either does not parse or is an object with the fields read.
- `window.open`, the one-second poll for a closed window (content.js:495-506), `Date.now` (passed in as `now`) and `toLocaleString` (content.js:258) are host and environment calls.
- Async interleavings are not modelled; each call is atomic. Examples are two overlapping `checkLoginStatus` calls, and the duplicate-UI check at content.js:728 racing with `getSheets`.
- The host page's own handling of the synthetic like click (content.js:909) is not modelled. The click appears only as the re-entry into the guard, on the same article with the new mark.
- `console` logging is not modelled.
- Session.CheckLoginStatus: `data.success` is a boolean and `user.id` an optional string, so a numeric or falsy non-string id is not modelled.
- Watcher.Scan: states which buttons are attached and that each is attached once, but not the order in which they are attached.
- LikeGuard.ArticleView: `liked` stands both for "an unlike control is present" (content.js:49) and for "no like control is present" (content.js:901). The model assumes each article holds exactly one of the two controls; the finding at content.js:901-903 relies on this.
- Extractor.Extract: the `<time>` lookup and its enclosing link are an abstract `TimeSignal`. The first `<time>` in the container and its nearest `<a>` ancestor, which may lie outside the article, are not derived from a tree.

=== FILE: api.dfy ===
/** The outcome logic of the network steps: `loadSheetList`, `saveToSheet`,
    `saveToSheetDirect` and `getSheets`, each from the stored API key and the
    abstract reply of its request to what the script shows or does next. */
module Api {
  import opened Options
  import opened JsString
  import opened Http
  import opened Session
  import opened Extractor

  datatype Sheet = Sheet(id: string, title: string, createdAt: string)

  /** The `/api/sheets` body: not JSON, or JSON with `success` and `sheets`. */
  datatype SheetsBody = SheetsNotJson | SheetsJson(success: bool, sheets: Option<seq<Sheet>>)

  /** The `/api/posts` body: not JSON, or JSON with an optional `error` message. */
  datatype PostBody = PostNotJson | PostJson(error: Option<string>)

  /** The JSON body POSTed to `/api/posts`. */
  datatype PostRequest = PostRequest(url: string, content: string, sheetId: string)

  datatype NoticeKind = SuccessNotice | ErrorNotice

  /** A transient notification (`showNotification`). */
  datatype Notice = Notice(kind: NoticeKind, message: string)

  const UrlMissingMessage := "ツイートのURLが取得できませんでした"
  const TokenMissingMessage := "APIトークンが取得できませんでした"
  const InvalidResponseMessage := "サーバーからの応答が不正です"
  const GenericSaveFailure := "保存に失敗しました"

  function AddedMessage(sheetTitle: string): string {
    "シート「" + sheetTitle + "」に追加しました"
  }

  /** The reply the sheet list is rendered from: `ok`, JSON, `success`, `sheets`. */
  predicate ListingReply(reply: Reply<SheetsBody>) {
    && reply.Answered? && IsOk(reply.status)
    && reply.body.SheetsJson? && reply.body.success && reply.body.sheets.Some?
  }

  // ---------------------------------------------------------------------
  // loadSheetList

  /** What the selection modal ends up showing. */
  datatype SheetListOutcome =
    | RenderSheets(sheets: seq<Sheet>)  // one entry per sheet, in server order
    | AuthErrorModal                    // the API-key error modal, no retry button
    | RetryUi                           // the failure text with a retry button

  datatype SheetListStep = SheetListStep(login: LoginStep, listRequested: bool, outcome: SheetListOutcome)

  /** `loadSheetList`: a login check, then the `/api/sheets` request. */
  function LoadSheetList(a: Account, stored: Option<string>, now: int,
                         profile: Reply<ProfileBody>, reply: Reply<SheetsBody>): (r: SheetListStep)
    ensures r.login == CheckLoginStatus(a, stored, now, profile)
    ensures r.listRequested <==> r.login.loggedIn
    ensures r.outcome.RenderSheets? <==> r.login.loggedIn && ListingReply(reply)
    ensures r.outcome.RenderSheets? ==> r.outcome.sheets == reply.body.sheets.value
    ensures r.outcome == AuthErrorModal <==>
      r.login.loggedIn && reply.Answered? && reply.status == Unauthorized
  {
    var login := CheckLoginStatus(a, stored, now, profile);
    if !login.loggedIn then SheetListStep(login, false, RetryUi)
    else if GetApiToken(stored).token.None? then SheetListStep(login, false, RetryUi)
    else
      var outcome :=
        match reply
        case Threw(_) => RetryUi
        case Answered(status, body) =>
          if !IsOk(status) then
            if status == Unauthorized then AuthErrorModal else RetryUi
          else
            match body
            case SheetsNotJson => RetryUi
            case SheetsJson(success, sheets) =>
              if success && sheets.Some? then RenderSheets(sheets.value) else RetryUi;
      SheetListStep(login, true, outcome)
  }

  /** A successful login check implies a token, so the second token check
      in `loadSheetList` never fails when storage is unchanged. */
  lemma LoggedInImpliesToken(a: Account, stored: Option<string>, now: int, profile: Reply<ProfileBody>)
    requires CheckLoginStatus(a, stored, now, profile).loggedIn
    ensures GetApiToken(stored).token.Some?
  {
  }

  // ---------------------------------------------------------------------
  // saveToSheet (the selection modal's path)

  /** Effects of `saveToSheet`: whether the stored key was read, the API-key
      entry modal requested, the POST sent, the notice shown, the selection
      modal removed and the API-key error modal requested. */
  datatype SaveEffects = SaveEffects(
    tokenRead: bool, keyModal: bool, request: Option<PostRequest>,
    notice: Option<Notice>, modalRemoved: bool, authModal: bool)

  function SaveToSheet(post: PostRecord, sheetId: string, sheetTitle: string,
                       stored: Option<string>, reply: Reply<PostBody>): (r: SaveEffects)
    // an empty URL fails before the key is read or anything is sent
    ensures post.url == [] ==>
      r == SaveEffects(false, false, None, Some(Notice(ErrorNotice, UrlMissingMessage)), false, false)
    // the request, when sent, carries the post and needs a URL and a token
    ensures r.request.Some? <==> post.url != [] && GetApiToken(stored).token.Some?
    ensures r.request.Some? ==> r.request.value == PostRequest(post.url, post.text, sheetId)
    ensures r.keyModal <==> post.url != [] && GetApiToken(stored).token.None?
    // with a URL the key is always read; a missing key is an error notice
    ensures post.url != [] ==> r.tokenRead
    ensures post.url != [] && GetApiToken(stored).token.None? ==>
      r.notice == Some(Notice(ErrorNotice, TokenMissingMessage)) && !r.modalRemoved && !r.authModal
    // a body that is not JSON is an error whatever the status
    ensures r.request.Some? && reply.Answered? && reply.body.PostNotJson? ==>
      r.notice == Some(Notice(ErrorNotice, InvalidResponseMessage)) && !r.modalRemoved && !r.authModal
    // 2xx: success notice, modal removed
    ensures r.modalRemoved <==> r.request.Some? && reply.Answered? && IsOk(reply.status) && reply.body.PostJson?
    ensures r.modalRemoved ==> r.notice == Some(Notice(SuccessNotice, AddedMessage(sheetTitle)))
    // 401: only the API-key error modal
    ensures r.authModal <==>
      r.request.Some? && reply.Answered? && reply.status == Unauthorized && reply.body.PostJson?
    ensures r.authModal ==> r.notice.None? && !r.modalRemoved
    // any other status: the server's error message or the generic one
    ensures r.request.Some? && reply.Answered? && !IsOk(reply.status) && reply.status != Unauthorized
            && reply.body.PostJson? ==>
      r.notice == Some(Notice(ErrorNotice, OrElse(reply.body.error, GenericSaveFailure)))
    // a transport failure shows its own message
    ensures r.request.Some? && reply.Threw? ==> r.notice == Some(Notice(ErrorNotice, reply.message))
  {
    if post.url == [] then
      SaveEffects(false, false, None, Some(Notice(ErrorNotice, UrlMissingMessage)), false, false)
    else
      var lookup := GetApiToken(stored);
      if lookup.token.None? then
        SaveEffects(true, true, None, Some(Notice(ErrorNotice, TokenMissingMessage)), false, false)
      else
        var request := Some(PostRequest(post.url, post.text, sheetId));
        match reply
        case Threw(message) =>
          SaveEffects(true, false, request, Some(Notice(ErrorNotice, message)), false, false)
        case Answered(status, body) =>
          match body
          case PostNotJson =>
            SaveEffects(true, false, request, Some(Notice(ErrorNotice, InvalidResponseMessage)), false, false)
          case PostJson(error) =>
            if IsOk(status) then
              SaveEffects(true, false, request, Some(Notice(SuccessNotice, AddedMessage(sheetTitle))), true, false)
            else if status == Unauthorized then
              SaveEffects(true, false, request, None, false, true)
            else
              SaveEffects(true, false, request, Some(Notice(ErrorNotice, OrElse(error, GenericSaveFailure))), false, false)
  }

  // ---------------------------------------------------------------------
  // saveToSheetDirect (the always-visible sheet buttons' path)

  /** Effects of `saveToSheetDirect`: whether it threw to its caller, the
      API-key entry modal, the POST sent, the notice shown and the API-key
      error modal. */
  datatype DirectEffects = DirectEffects(
    threw: bool, keyModal: bool, request: Option<PostRequest>, notice: Option<Notice>, authModal: bool)

  function SaveToSheetDirect(post: PostRecord, sheetId: string, sheetTitle: string,
                             stored: Option<string>, reply: Reply<PostBody>): (r: DirectEffects)
    // no URL guard: any token sends the request, even for an empty URL
    ensures r.request.Some? <==> GetApiToken(stored).token.Some?
    ensures r.request.Some? ==> r.request.value == PostRequest(post.url, post.text, sheetId)
    ensures r.keyModal <==> GetApiToken(stored).token.None?
    // it returns normally exactly on a 2xx or a 401 reply; a 401 does not throw
    ensures !r.threw <==>
      r.request.Some? && reply.Answered? && (IsOk(reply.status) || reply.status == Unauthorized)
    ensures r.authModal <==> r.request.Some? && reply.Answered? && reply.status == Unauthorized
    ensures r.notice.Some? <==> r.request.Some? && reply.Answered? && IsOk(reply.status)
    ensures r.notice.Some? ==> r.notice.value == Notice(SuccessNotice, AddedMessage(sheetTitle))
  {
    var lookup := GetApiToken(stored);
    if lookup.token.None? then
      DirectEffects(true, true, None, None, false)
    else
      var request := Some(PostRequest(post.url, post.text, sheetId));
      match reply
      case Threw(_) => DirectEffects(true, false, request, None, false)
      case Answered(status, _) =>
        if IsOk(status) then
          DirectEffects(false, false, request, Some(Notice(SuccessNotice, AddedMessage(sheetTitle))), false)
        else if status == Unauthorized then
          DirectEffects(false, false, request, None, true)
        else
          // `response.json()` then `throw new Error(data.error || ...)`; either way it throws
          DirectEffects(true, false, request, None, false)
  }

  /** The direct path sends a post with an empty URL, which the modal path
      refuses before reading the key. */
  lemma DirectPostsEmptyUrl(post: PostRecord, sheetId: string, sheetTitle: string,
                            stored: Option<string>, reply: Reply<PostBody>)
    requires post.url == [] && GetApiToken(stored).token.Some?
    ensures SaveToSheetDirect(post, sheetId, sheetTitle, stored, reply).request == Some(PostRequest("", post.text, sheetId))
    ensures SaveToSheet(post, sheetId, sheetTitle, stored, reply).request.None?
  {
  }

  // ---------------------------------------------------------------------
  // getSheets (for the always-visible sheet buttons)

  datatype SheetsFetch = SheetsFetch(keyModal: bool, requested: bool, sheets: Option<seq<Sheet>>)

  /** `getSheets`: any failure gives null. */
  function GetSheets(stored: Option<string>, reply: Reply<SheetsBody>): (r: SheetsFetch)
    ensures r.requested <==> GetApiToken(stored).token.Some?
    ensures r.keyModal <==> !r.requested
    ensures r.sheets.Some? <==> r.requested && ListingReply(reply)
    ensures r.sheets.Some? ==> r.sheets.value == reply.body.sheets.value
  {
    if GetApiToken(stored).token.None? then SheetsFetch(true, false, None)
    else if ListingReply(reply) then SheetsFetch(false, true, reply.body.sheets)
    else SheetsFetch(false, true, None)
  }

  /** The two readers of `/api/sheets` agree: once logged in, the modal
      renders a list exactly when `getSheets` returns that same list; a 401
      that the modal turns into the API-key error modal is null for `getSheets`. */
  lemma ListingReadersAgree(a: Account, stored: Option<string>, now: int,
                            profile: Reply<ProfileBody>, reply: Reply<SheetsBody>)
    requires CheckLoginStatus(a, stored, now, profile).loggedIn
    ensures var modal := LoadSheetList(a, stored, now, profile, reply).outcome;
      var direct := GetSheets(stored, reply).sheets;
      && (modal.RenderSheets? <==> direct.Some?)
      && (modal.RenderSheets? ==> direct.value == modal.sheets)
      && (modal == AuthErrorModal ==> direct.None?)
  {
  }
}

=== FILE: classification_ui.dfy ===
/** The always-visible classification buttons: where they are placed
    (`getTargetDiv`), whether they are added (`addSheetClassificationUI`),
    and what a click on one does (the handler in `createSheetButton`). */
module ClassificationUi {
  import opened Options
  import opened Extractor
  import opened Http
  import opened Session
  import opened Api
  import opened LikeGuard

  /** How many parent steps `getTargetDiv` climbs before looking for a DIV. */
  const ClimbLevels := 4

  /** The first index at or after `i` whose tag is `DIV`. */
  function FirstDivFrom(chain: seq<string>, i: nat): (r: Option<nat>)
    ensures r.Some? ==> i <= r.value < |chain| && chain[r.value] == "DIV"
    ensures r.Some? ==> forall j :: i <= j < r.value ==> chain[j] != "DIV"
    ensures r.None? ==> forall j :: i <= j < |chain| ==> chain[j] != "DIV"
    decreases |chain| - i
  {
    if i >= |chain| then None
    else if chain[i] == "DIV" then Some(i)
    else FirstDivFrom(chain, i + 1)
  }

  /** `getTargetDiv` over the ancestor chain's tag names, with the like
      button at index 0 and each parent after its child: the first `DIV` at
      index 4 or above, or null (also when the chain is shorter than five). */
  function TargetDiv(chain: seq<string>): (r: Option<nat>)
    ensures r.Some? ==> ClimbLevels <= r.value < |chain| && chain[r.value] == "DIV"
    ensures r.Some? ==> forall j :: ClimbLevels <= j < r.value ==> chain[j] != "DIV"
    ensures r.None? <==> forall j :: ClimbLevels <= j < |chain| ==> chain[j] != "DIV"
  {
    FirstDivFrom(chain, ClimbLevels)
  }

  /** What `addSheetClassificationUI` does for one newly attached button. */
  datatype UiDecision =
    | NotLoggedIn
    | NoTargetDiv
    | UiAlreadyPresent
    | NoSheets
    | AppendUi(target: nat, buttons: seq<Sheet>)  // one button per sheet, in server order

  /** `addSheetClassificationUI`, given the login verdict, the ancestor
      chain, whether the target already holds a classification UI, and the
      result of `getSheets`. */
  function AddClassificationUi(loggedIn: bool, chain: seq<string>, targetHasUi: bool,
                               sheets: Option<seq<Sheet>>): (r: UiDecision)
    ensures r.AppendUi? <==>
      loggedIn && TargetDiv(chain).Some? && !targetHasUi && sheets.Some? && sheets.value != []
    ensures r.AppendUi? ==> r.target == TargetDiv(chain).value && chain[r.target] == "DIV"
    ensures r.AppendUi? ==> r.buttons == sheets.value
  {
    if !loggedIn then NotLoggedIn
    else match TargetDiv(chain)
      case None => NoTargetDiv
      case Some(target) =>
        if targetHasUi then UiAlreadyPresent
        else if sheets.None? || sheets.value == [] then NoSheets
        else AppendUi(target, sheets.value)
  }

  /** Everything a click on a sheet button does: the direct save, the
      notices in the order shown, the marks it sets, the synthetic like click
      and the guard's decision for the click it re-enters. `article` is the
      article as that re-entered click sees it: it holds the like control's
      mark (set before the click) but not the sheet button's own mark, which
      is set only after the click returns (`buttonMarked`). */
  datatype SheetClickEffects = SheetClickEffects(
    save: Option<DirectEffects>,
    notices: seq<Notice>,
    likeMarked: bool,
    likeClicked: bool,
    buttonMarked: bool,
    article: Option<ArticleView>,
    reentry: Option<ClickDecision>)

  function NoEffects(article: Option<ArticleView>): SheetClickEffects {
    SheetClickEffects(None, [], false, false, false, article, None)
  }

  function NoticesOf(d: DirectEffects): seq<Notice> {
    if d.notice.Some? then [d.notice.value] else []
  }

  /** The article after the like control gets `data-xsheet-saved`. */
  function MarkLikeSaved(a: ArticleView): ArticleView {
    a.(savedMarks := a.savedMarks + 1)
  }

  /** The click handler as written: line 902 dereferences the like control
      before line 903 checks it for null, so on an already-liked post
      (no `[data-testid="like"]`) the completed save is followed by a
      TypeError, the generic error notice, and no mark on the sheet button. */
  function SheetButtonClickAsWritten(article: Option<ArticleView>, sheet: Sheet,
                                     stored: Option<string>, reply: Reply<PostBody>): (r: SheetClickEffects)
    ensures article.Some? && article.value.liked && Extract(article.value.post).Some?
            && !SaveToSheetDirect(Extract(article.value.post).value, sheet.id, sheet.title, stored, reply).threw ==>
      !r.buttonMarked && |r.notices| >= 1 && r.notices[|r.notices| - 1] == Notice(ErrorNotice, GenericSaveFailure)
  {
    match article
    case None => NoEffects(article)
    case Some(a) =>
      match Extract(a.post)
      case None => NoEffects(article)
      case Some(post) =>
        var d := SaveToSheetDirect(post, sheet.id, sheet.title, stored, reply);
        if d.threw then
          SheetClickEffects(Some(d), NoticesOf(d) + [Notice(ErrorNotice, GenericSaveFailure)], false, false, false, article, None)
        else if a.liked then
          SheetClickEffects(Some(d), NoticesOf(d) + [Notice(ErrorNotice, GenericSaveFailure)], false, false, false, article, None)
        else
          var a' := MarkLikeSaved(a);
          SheetClickEffects(Some(d), NoticesOf(d), true, true, true, Some(a'), Some(HandleLikeButtonClick(Some(a'))))
  }

  /** A completed save on an already-liked post reports a failure: the
      success notice is followed by the generic error notice. */
  lemma LikedPostSaveReportsFailure()
    ensures var c := PostContainer(TimeInLink("https://x.com/a/status/1"), None, None, None, None);
      var r := SheetButtonClickAsWritten(Some(ArticleView(true, 0, None, c)), Sheet("7", "Reading List", ""),
                                         Some("tok_abc123"), Answered(200, PostJson(None)));
      && r.notices == [Notice(SuccessNotice, AddedMessage("Reading List")), Notice(ErrorNotice, GenericSaveFailure)]
      && !r.buttonMarked
  {
  }

  /** The click handler with the null check before the dereference: on an
      already-liked post the mark and the synthetic click are skipped and
      the sheet button is still marked. */
  function SheetButtonClick(article: Option<ArticleView>, sheet: Sheet,
                            stored: Option<string>, reply: Reply<PostBody>): (r: SheetClickEffects)
    // nothing happens without an article or an extractable post
    ensures (article.None? || Extract(article.value.post).None?) ==> r == NoEffects(article)
    // the direct save is made for the extracted post, this sheet and this reply
    ensures article.Some? && Extract(article.value.post).Some? ==>
      r.save == Some(SaveToSheetDirect(Extract(article.value.post).value, sheet.id, sheet.title, stored, reply))
    ensures r.save.Some? && !r.save.value.threw ==> r.notices == NoticesOf(r.save.value)
    // the button click is not gated by earlier saves: a token always sends the request
    ensures article.Some? && Extract(article.value.post).Some? && GetApiToken(stored).token.Some? ==>
      r.save.Some? && r.save.value.request.Some?
    // the marks are set exactly when the direct save returned normally (a 401 included)
    ensures r.buttonMarked <==> r.save.Some? && !r.save.value.threw
    ensures r.likeMarked <==> r.buttonMarked && !article.value.liked
    ensures r.likeClicked == r.likeMarked
    // a throw shows exactly the generic error notice; otherwise no error notice
    ensures r.save.Some? && r.save.value.threw ==> r.notices == [Notice(ErrorNotice, GenericSaveFailure)]
    ensures r.save.Some? && !r.save.value.threw ==> forall n :: n in r.notices ==> n.kind == SuccessNotice
    // the synthetic like click re-enters the guard, which then refuses to open the modal
    ensures r.likeClicked ==> r.reentry.Some? && !r.reentry.value.OpenModal?
    ensures r.likeClicked ==> r.article.Some? && r.article.value.savedMarks > 0
  {
    match article
    case None => NoEffects(article)
    case Some(a) =>
      match Extract(a.post)
      case None => NoEffects(article)
      case Some(post) =>
        var d := SaveToSheetDirect(post, sheet.id, sheet.title, stored, reply);
        if d.threw then
          SheetClickEffects(Some(d), NoticesOf(d) + [Notice(ErrorNotice, GenericSaveFailure)], false, false, false, article, None)
        else if a.liked then
          SheetClickEffects(Some(d), NoticesOf(d), false, false, true, article, None)
        else
          var a' := MarkLikeSaved(a);
          SheetClickEffects(Some(d), NoticesOf(d), true, true, true, Some(a'), Some(HandleLikeButtonClick(Some(a'))))
  }

  /** A 401 from the direct save does not throw, so the post is marked as
      saved (and liked) although nothing was stored. */
  lemma UnauthorizedStillMarks(article: ArticleView, sheet: Sheet, stored: Option<string>, body: PostBody)
    requires !article.liked && Extract(article.post).Some? && GetApiToken(stored).token.Some?
    ensures var r := SheetButtonClick(Some(article), sheet, stored, Answered(Unauthorized, body));
      r.likeMarked && r.buttonMarked && r.save.value.authModal
  {
  }

  /** The two handlers differ only on already-liked posts. */
  lemma CorrectionOnlyAffectsLikedPosts(article: Option<ArticleView>, sheet: Sheet,
                                        stored: Option<string>, reply: Reply<PostBody>)
    requires article.None? || !article.value.liked
    ensures SheetButtonClick(article, sheet, stored, reply) == SheetButtonClickAsWritten(article, sheet, stored, reply)
  {
  }

  /** At-most-once classification through the sheet buttons: once a direct
      save has returned on a post that was not liked, no number of further
      like clicks on that article opens a selection modal. */
  lemma SavedByButtonNeverReopens(article: ArticleView, sheet: Sheet, stored: Option<string>,
                                  reply: Reply<PostBody>, open: seq<Modal>, clicks: nat)
    requires SheetButtonClick(Some(article), sheet, stored, reply).likeMarked
    ensures var r := SheetButtonClick(Some(article), sheet, stored, reply);
      r.article.Some? && Repeat(open, r.article.value, clicks) == open
  {
    var r := SheetButtonClick(Some(article), sheet, stored, reply);
    SavedArticleNeverReopens(open, r.article.value, clicks);
  }
}

=== FILE: extractor.dfy ===
/** The post extractor (`extractTweetData`): from an abstract view of an
    `article` element to the record the classification workflow saves. */
module Extractor {
  import opened Options
  import opened JsString

  /** The path segment that separates a post's URL from its id. */
  const StatusSegment := "/status/"

  /** The URL template strategy 3 fills with the id it finds. */
  const CanonicalStatusPrefix := "https://twitter.com/i/status/"

  /** What `querySelector('time').closest('a')` can find in the container. */
  datatype TimeSignal =
    | NoTime                  // no `<time>` element: `.closest` is called on null
    | TimeWithoutLink         // a `<time>` with no enclosing link
    | TimeInLink(href: string) // the resolved `href` of the enclosing link ("" when it has none)

  /** The parts of a post container the extractor looks at. */
  datatype PostContainer = PostContainer(
    time: TimeSignal,
    statusLinkHref: Option<string>,  // first `a[href*="/status/"]`, resolved href
    ariaLabelledBy: Option<string>,  // the `aria-labelledby` attribute
    text: Option<string>,            // text content of the post-text region
    author: Option<string>)          // text content of the user-name region

  /** The extracted post. `id` is `None` where the script holds `undefined`. */
  datatype PostRecord = PostRecord(id: Option<string>, url: string, text: string, author: string)

  /** The `tweetUrl`/`tweetId` pair while the strategies run. */
  datatype Identity = Identity(url: string, id: Option<string>)

  /** JavaScript truthiness of a string-or-undefined id. */
  predicate Truthy(id: Option<string>) {
    id.Some? && id.value != []
  }

  /** The id embedded in a status URL: `href.split('/status/')[1]`. */
  function StatusId(href: string): Option<string> {
    SplitSecond(href, StatusSegment)
  }

  /** Strategy 1: the link around the `<time>` element. */
  function FromTimeLink(time: TimeSignal): Identity
    requires !time.NoTime?
  {
    match time
    case TimeInLink(href) => Identity(href, StatusId(href))
    case TimeWithoutLink => Identity("", Some(""))
  }

  /** Strategy 2: any `/status/` link, consulted only while the URL is empty. */
  function FromStatusLink(c: PostContainer, prior: Identity): Identity {
    if prior.url == [] && c.statusLinkHref.Some? then
      var href := c.statusLinkHref.value;
      Identity(href, StatusId(href))
    else prior
  }

  /** Strategy 3: trailing digits of `aria-labelledby`, consulted only while
      the id is falsy. */
  function FromAriaLabel(c: PostContainer, prior: Identity): Identity {
    if !Truthy(prior.id) && c.ariaLabelledBy.Some? && c.ariaLabelledBy.value != [] then
      match TrailingDigits(c.ariaLabelledBy.value)
      case Some(digits) => Identity(CanonicalStatusPrefix + digits, Some(digits))
      case None => prior
    else prior
  }

  /** `extractTweetData`: `None` (null) when the container has no `<time>`,
      since the script then throws and its catch returns null. */
  function Extract(c: PostContainer): (r: Option<PostRecord>)
    ensures r.None? <==> c.time.NoTime?
    ensures r.Some? ==> r.value.text == c.text.GetOr("") && r.value.author == c.author.GetOr("")
    ensures r.Some? && r.value.url == [] ==> !Truthy(r.value.id)
    ensures r.Some? && r.value.id.Some? ==> Contains(r.value.url, r.value.id.value)
  {
    if c.time.NoTime? then None
    else
      var ident := FromAriaLabel(c, FromStatusLink(c, FromTimeLink(c.time)));
      IdentityIdInUrl(c);
      Some(PostRecord(ident.id, ident.url, c.text.GetOr(""), c.author.GetOr("")))
  }

  /** The id found by any strategy lies within the URL it came with, and an
      empty URL never comes with a truthy id. */
  lemma IdentityIdInUrl(c: PostContainer)
    requires !c.time.NoTime?
    ensures var ident := FromAriaLabel(c, FromStatusLink(c, FromTimeLink(c.time)));
      && (ident.id.Some? ==> Contains(ident.url, ident.id.value))
      && (ident.url == [] ==> !Truthy(ident.id))
  {
    var i1 := FromTimeLink(c.time);
    var i2 := FromStatusLink(c, i1);
    var i3 := FromAriaLabel(c, i2);
    StatusIdInUrl(i1);
    StatusIdInUrl(i2);
    if i3 != i2 {
      var digits := i3.id.value;
      assert (CanonicalStatusPrefix + digits)[|CanonicalStatusPrefix|..] == digits;
      assert OccursAt(i3.url, digits, |CanonicalStatusPrefix|);
    }
  }

  /** After strategies 1 and 2 the id is either the empty initial value or
      the status piece of the URL. */
  lemma StatusIdInUrl(ident: Identity)
    requires ident.id == Some("") || ident.id == StatusId(ident.url)
    ensures ident.id.Some? ==> Contains(ident.url, ident.id.value)
    ensures ident.url == [] ==> !Truthy(ident.id)
  {
    if ident.id == Some("") {
      assert OccursAt(ident.url, "", 0);
    } else if ident.id.Some? {
      var start := IndexOf(ident.url, StatusSegment).value + |StatusSegment|;
      assert OccursAt(ident.url, ident.id.value, start);
    }
  }

  /** The URL strategy 3 synthesises splits back to the id it was built
      from: `CanonicalStatusPrefix` holds `/status/` exactly once, at its end,
      and digits contain no `/`. */
  lemma CanonicalUrlRoundTrip(digits: string)
    requires AllDigits(digits)
    ensures StatusId(CanonicalStatusPrefix + digits) == Some(digits)
  {
    var p := CanonicalStatusPrefix;
    var u := p + digits;
    var host := "https://twitter.com/i";
    assert p == host + StatusSegment;
    var at := |CanonicalStatusPrefix| - |StatusSegment|;  // where `/status/` sits in the prefix
    var end := |CanonicalStatusPrefix|;
    assert at == |host|;
    forall j: nat | j < at ensures !OccursAt(u, StatusSegment, j) {
      OccursAtStartsWith(u, StatusSegment, j);
      assert u[j] == host[j] && u[j + 1] == p[j + 1];
    }
    assert u[at..end] == p[at..end] == StatusSegment;
    assert OccursAt(u, StatusSegment, at);
    var first := IndexOf(u, StatusSegment);
    assert first.Some? && !(first.value < at);
    forall j: nat | end <= j ensures !OccursAt(u, StatusSegment, j) {
      OccursAtStartsWith(u, StatusSegment, j);
      assert j < |u| ==> u[j] == digits[j - end];
    }
    assert IndexFrom(u, StatusSegment, end).None?;
    assert u[end..] == digits;
  }

  /** Priority of strategy 1: a non-empty `<time>` link decides the URL, the
      `/status/` link is never consulted, and when the link holds a status id
      the label is not consulted either. */
  lemma TimeLinkTakesPriority(c: PostContainer, otherStatusLink: Option<string>)
    requires c.time.TimeInLink? && c.time.href != []
    ensures Extract(c.(statusLinkHref := otherStatusLink)) == Extract(c)
    ensures Truthy(StatusId(c.time.href)) ==>
      Extract(c) == Some(PostRecord(StatusId(c.time.href), c.time.href, c.text.GetOr(""), c.author.GetOr("")))
  {
  }

  /** Strategy 2: without a usable `<time>` link, the first `/status/` link
      supplies the URL and the piece after `/status/` the id. */
  lemma StatusLinkFallback(c: PostContainer, href: string)
    requires c.time == TimeWithoutLink || c.time == TimeInLink("")
    requires c.statusLinkHref == Some(href) && Truthy(StatusId(href))
    ensures Extract(c).Some?
    ensures Extract(c).value.url == href && Extract(c).value.id == StatusId(href)
  {
  }

  /** Strategy 3: when strategies 1 and 2 leave the id falsy and the label
      ends in digits, the maximal trailing digit run becomes the id, the URL
      is the canonical status URL, and splitting that URL gives the id back. */
  lemma AriaLabelFallback(c: PostContainer, labelAttr: string)
    requires !c.time.NoTime?
    requires !Truthy(FromStatusLink(c, FromTimeLink(c.time)).id)
    requires c.ariaLabelledBy == Some(labelAttr) && TrailingDigits(labelAttr).Some?
    ensures Extract(c).Some?
    ensures var r := Extract(c).value;
      && r.id == TrailingDigits(labelAttr)
      && r.url == CanonicalStatusPrefix + TrailingDigits(labelAttr).value
      && StatusId(r.url) == r.id
  {
    CanonicalUrlRoundTrip(TrailingDigits(labelAttr).value);
  }

  /** With none of the three signals the record is still produced, with an
      empty URL and the empty initial id. */
  lemma NoSignalGivesEmptyIdentity(c: PostContainer)
    requires c.time == TimeWithoutLink && c.statusLinkHref.None?
    requires c.ariaLabelledBy.None? || TrailingDigits(c.ariaLabelledBy.value).None?
    ensures Extract(c) == Some(PostRecord(Some(""), "", c.text.GetOr(""), c.author.GetOr("")))
  {
  }

  /** A non-empty URL with an absent id is reachable: a `<time>` link that is
      not a status URL together with a label that does not end in digits. */
  lemma UrlWithoutIdReachable()
    ensures var c := PostContainer(TimeInLink("https://x.com/home"), None, Some("id-abc"), None, None);
      Extract(c) == Some(PostRecord(None, "https://x.com/home", "", ""))
  {
    var h := "https://x.com/home";
    forall j: nat | j + 8 <= |h| ensures !OccursAt(h, StatusSegment, j) {
      OccursAtStartsWith(h, StatusSegment, j);
    }
    assert !Contains(h, StatusSegment);
  }

  /** When strategies 1 and 2 leave the id falsy and the label has no
      trailing digits, the record keeps what they found: the URL and the
      status piece of it (absent when the URL has no `/status/`), or the
      empty initial values. */
  lemma NoAriaFallbackKeepsLinkIdentity(c: PostContainer)
    requires !c.time.NoTime?
    requires !Truthy(FromStatusLink(c, FromTimeLink(c.time)).id)
    requires c.ariaLabelledBy.None? || TrailingDigits(c.ariaLabelledBy.value).None?
    ensures var ident := FromStatusLink(c, FromTimeLink(c.time));
      Extract(c) == Some(PostRecord(ident.id, ident.url, c.text.GetOr(""), c.author.GetOr("")))
    ensures var ident := FromStatusLink(c, FromTimeLink(c.time));
      ident.id == Some("") || ident.id == StatusId(ident.url)
  {
  }

  /** The case of a non-empty `<time>` link with no status id in it: the
      record keeps the link as URL and `split('/status/')[1]` as id, which is
      absent exactly when the link has no `/status/`. */
  lemma TimeLinkWithoutStatusId(c: PostContainer)
    requires c.time.TimeInLink? && c.time.href != [] && !Truthy(StatusId(c.time.href))
    requires c.ariaLabelledBy.None? || TrailingDigits(c.ariaLabelledBy.value).None?
    ensures Extract(c) == Some(PostRecord(StatusId(c.time.href), c.time.href, c.text.GetOr(""), c.author.GetOr("")))
    ensures Extract(c).value.id.None? <==> !Contains(c.time.href, StatusSegment)
  {
    NoAriaFallbackKeepsLinkIdentity(c);
  }
}

=== FILE: http.dfy ===
/** Abstract outcome of one `fetch` call: either it threw (network failure),
    or the server answered with a status and a body the script may parse. */
module Http {

  datatype Reply<Body> =
    | Threw(message: string)
    | Answered(status: int, body: Body)

  /** `response.ok`. */
  predicate IsOk(status: int) {
    200 <= status <= 299
  }

  const Unauthorized := 401
}

=== FILE: js_string.dfy ===
/** The few JavaScript string operations the content script relies on:
    `split(sep)[1]`, `trim()`, the regular expression `/(\d+)$/` and the
    truthiness of strings in `a || b`. */
module JsString {
  import opened Options

  /** `pat` occurs in `s` starting at index `i`. */
  predicate OccursAt(s: string, pat: string, i: nat) {
    i + |pat| <= |s| && s[i..i + |pat|] == pat
  }

  /** An occurrence of `pat` begins with the first two characters of `pat`. */
  lemma OccursAtStartsWith(s: string, pat: string, i: nat)
    requires |pat| >= 2
    ensures OccursAt(s, pat, i) ==> s[i] == pat[0] && s[i + 1] == pat[1]
  {
    if OccursAt(s, pat, i) {
      assert s[i..i + |pat|][0] == s[i] && s[i..i + |pat|][1] == s[i + 1];
    }
  }

  /** `pat` occurs somewhere in `s` (JavaScript's `s.includes(pat)`). */
  predicate Contains(s: string, pat: string) {
    exists i: nat | i <= |s| :: OccursAt(s, pat, i)
  }

  /** The least index at or after `k` where `pat` occurs in `s`. */
  function IndexFrom(s: string, pat: string, k: nat): (r: Option<nat>)
    ensures r.Some? ==> k <= r.value && OccursAt(s, pat, r.value)
    ensures r.Some? ==> forall j: nat :: k <= j < r.value ==> !OccursAt(s, pat, j)
    ensures r.None? ==> forall j: nat :: k <= j ==> !OccursAt(s, pat, j)
    decreases |s| - k
  {
    if k + |pat| > |s| then None
    else if s[k..k + |pat|] == pat then Some(k)
    else IndexFrom(s, pat, k + 1)
  }

  /** The index of the first occurrence of `pat` in `s` (`s.indexOf(pat)`). */
  function IndexOf(s: string, pat: string): (r: Option<nat>)
    ensures r.None? <==> !Contains(s, pat)
    ensures r.Some? ==> OccursAt(s, pat, r.value)
    ensures r.Some? ==> forall j: nat :: j < r.value ==> !OccursAt(s, pat, j)
  {
    IndexFrom(s, pat, 0)
  }

  /** JavaScript's `s.split(sep)[1]` for a non-empty separator: the piece of
      `s` after the first occurrence of `sep` up to the next non-overlapping
      occurrence (or the end of `s`); `None` (undefined) when `sep` does not
      occur at all. */
  function SplitSecond(s: string, sep: string): (r: Option<string>)
    requires sep != []
    ensures r.None? <==> !Contains(s, sep)
    ensures r.Some? ==>
      var start := IndexOf(s, sep).value + |sep|;
      && OccursAt(s, r.value, start)
      && (forall j: nat :: start <= j < start + |r.value| ==> !OccursAt(s, sep, j))
      && (start + |r.value| == |s| || OccursAt(s, sep, start + |r.value|))
  {
    match IndexOf(s, sep)
    case None => None
    case Some(i) =>
      var start := i + |sep|;
      match IndexFrom(s, sep, start)
      case None =>
        assert s[start..start + |s[start..]|] == s[start..];
        Some(s[start..])
      case Some(e) => Some(s[start..e])
  }

  /** The code points JavaScript's `String.prototype.trim` removes:
      WhiteSpace and LineTerminator of ECMAScript. */
  predicate IsJsWhitespace(c: char) {
    || c == '\t' || c == '\n' || c == '\U{000B}' || c == '\U{000C}' || c == '\r'
    || c == ' ' || c == '\U{00A0}' || c == '\U{1680}'
    || ('\U{2000}' <= c <= '\U{200A}')
    || c == '\U{2028}' || c == '\U{2029}' || c == '\U{202F}' || c == '\U{205F}'
    || c == '\U{3000}' || c == '\U{FEFF}'
  }

  /** Every character of `s` is whitespace (vacuously so for ""). */
  predicate Blank(s: string) {
    forall i :: 0 <= i < |s| ==> IsJsWhitespace(s[i])
  }

  /** The index of the first non-whitespace character at or after `i`
      (`|s|` when there is none). */
  function SkipWhitespace(s: string, i: nat): (k: nat)
    requires i <= |s|
    ensures i <= k <= |s|
    ensures forall j :: i <= j < k ==> IsJsWhitespace(s[j])
    ensures k < |s| ==> !IsJsWhitespace(s[k])
    decreases |s| - i
  {
    if i < |s| && IsJsWhitespace(s[i]) then SkipWhitespace(s, i + 1) else i
  }

  /** The index just after the last non-whitespace character before `e`
      (0 when there is none). */
  function SkipWhitespaceBack(s: string, e: nat): (k: nat)
    requires e <= |s|
    ensures k <= e
    ensures forall j :: k <= j < e ==> IsJsWhitespace(s[j])
    ensures k > 0 ==> !IsJsWhitespace(s[k - 1])
  {
    if e > 0 && IsJsWhitespace(s[e - 1]) then SkipWhitespaceBack(s, e - 1) else e
  }

  /** Number of leading whitespace characters `trim()` drops from `s`. */
  function TrimOffset(s: string): nat {
    SkipWhitespace(s, 0)
  }

  /** JavaScript's `s.trim()`: `s` without leading and trailing whitespace. */
  function Trim(s: string): (r: string)
    ensures r == [] <==> Blank(s)
    ensures r != [] ==> !IsJsWhitespace(r[0]) && !IsJsWhitespace(r[|r| - 1])
    ensures OccursAt(s, r, TrimOffset(s))
    ensures forall j :: 0 <= j < TrimOffset(s) ==> IsJsWhitespace(s[j])
    ensures forall j :: TrimOffset(s) + |r| <= j < |s| ==> IsJsWhitespace(s[j])
  {
    var b := SkipWhitespace(s, 0);
    var e := SkipWhitespaceBack(s, |s|);
    if b >= e then
      assert forall j :: 0 <= j < |s| ==> IsJsWhitespace(s[j]);
      []
    else
      assert OccursAt(s, s[b..e], b);
      s[b..e]
  }

  predicate IsDigit(c: char) {
    '0' <= c <= '9'
  }

  predicate AllDigits(s: string) {
    forall i :: 0 <= i < |s| ==> IsDigit(s[i])
  }

  /** The start of the maximal run of ASCII digits that ends at `e`. */
  function DigitRunStart(s: string, e: nat): (k: nat)
    requires e <= |s|
    ensures k <= e
    ensures forall j :: k <= j < e ==> IsDigit(s[j])
    ensures k > 0 ==> !IsDigit(s[k - 1])
  {
    if e > 0 && IsDigit(s[e - 1]) then DigitRunStart(s, e - 1) else e
  }

  /** The capture of `s.match(/(\d+)$/)`: the maximal non-empty run of
      digits that ends `s`, or `None` when `s` does not end in a digit. */
  function TrailingDigits(s: string): (r: Option<string>)
    ensures r.None? <==> s == [] || !IsDigit(s[|s| - 1])
    ensures r.Some? ==> r.value != [] && AllDigits(r.value)
    ensures r.Some? ==> |r.value| <= |s| && OccursAt(s, r.value, |s| - |r.value|)
    ensures r.Some? && |r.value| < |s| ==> !IsDigit(s[|s| - |r.value| - 1])
  {
    var k := DigitRunStart(s, |s|);
    if k == |s| then None
    else
      assert OccursAt(s, s[k..], k);
      Some(s[k..])
  }

  /** JavaScript's `a || b` where `a` is an optional string: `a` when it is
      present and non-empty (truthy), otherwise `b`. */
  function OrElse(a: Option<string>, b: string): (r: string)
    ensures r == b || (a.Some? && r == a.value && r != [])
    ensures a.Some? && a.value != [] ==> r == a.value
  {
    if a.Some? && a.value != [] then a.value else b
  }
}

=== FILE: like_guard.dfy ===
/** The like-click guard (`handleLikeButtonClick`) and the selection
    modal's replacement rule (`showSheetSelectionModal`). */
module LikeGuard {
  import opened Options
  import opened Extractor

  /** What the guard can see of the `article` around the clicked control. */
  datatype ArticleView = ArticleView(
    liked: bool,                     // the host shows `[data-testid="unlike"]` instead of `like`
    savedMarks: nat,                 // elements carrying `data-xsheet-saved="true"` in the article
    uiSavedButtons: Option<nat>,     // saved buttons inside a `.xsheet-classification-ui` in the article
    post: PostContainer)

  /** Saved buttons inside the article's classification UI are themselves
      saved marks inside the article. */
  predicate Consistent(a: ArticleView) {
    a.uiSavedButtons.Some? ==> a.uiSavedButtons.value <= a.savedMarks
  }

  /** Why the guard returned, or the record the modal is opened for. */
  datatype ClickDecision =
    | NoArticle
    | AlreadyLiked
    | AlreadySaved
    | SavedInUi
    | ExtractionFailed
    | OpenModal(post: PostRecord)

  function HandleLikeButtonClick(article: Option<ArticleView>): (r: ClickDecision)
    ensures r.OpenModal? <==>
      && article.Some? && !article.value.liked && article.value.savedMarks == 0
      && (article.value.uiSavedButtons.None? || article.value.uiSavedButtons.value == 0)
      && Extract(article.value.post).Some?
    ensures r.OpenModal? ==> Some(r.post) == Extract(article.value.post)
    // the saved-mark guard on its own, as `SavedArticleNeverReopens` uses it
    ensures article.Some? && article.value.savedMarks > 0 ==> !r.OpenModal?
  {
    match article
    case None => NoArticle
    case Some(a) =>
      if a.liked then AlreadyLiked
      else if a.savedMarks > 0 then AlreadySaved
      else if a.uiSavedButtons.Some? && a.uiSavedButtons.value > 0 then SavedInUi
      else
        match Extract(a.post)
        case None => ExtractionFailed
        case Some(post) => OpenModal(post)
  }

  /** The check inside the classification UI never decides on its own: any
      saved button it finds was already seen by the article-wide check. */
  lemma UiCheckSubsumed(article: ArticleView)
    requires Consistent(article)
    ensures HandleLikeButtonClick(Some(article)) != SavedInUi
  {
  }

  /** The guard does not look at the URL: a post with no derivable URL still
      opens the modal (and only the later save refuses it). */
  lemma ModalOpensWithoutUrl()
    ensures var c := PostContainer(TimeWithoutLink, None, None, None, None);
      HandleLikeButtonClick(Some(ArticleView(false, 0, None, c))) ==
        OpenModal(PostRecord(Some(""), "", "", ""))
  {
  }

  /** The modals on the page, in document order; all share the `.xsheet-modal` class. */
  datatype Modal = SheetSelection(post: PostRecord) | ApiKeyEntry | ApiKeyError | ApiKeyRegenerate

  /** `showSheetSelectionModal`: the first `.xsheet-modal` on the page is
      removed and the new selection modal appended. */
  function ShowSheetSelectionModal(open: seq<Modal>, post: PostRecord): (r: seq<Modal>)
    ensures |r| == (if open == [] then 1 else |open|)
    ensures r[|r| - 1] == SheetSelection(post)
    ensures open != [] ==> r[..|r| - 1] == open[1..]
  {
    (if open == [] then [] else open[1..]) + [SheetSelection(post)]
  }

  /** A second request replaces the open selection modal rather than being
      ignored: after two requests only the second post's modal is open. */
  lemma SecondRequestReplaces(first: PostRecord, second: PostRecord)
    ensures ShowSheetSelectionModal(ShowSheetSelectionModal([], first), second) == [SheetSelection(second)]
  {
  }

  /** The replacement removes whichever modal comes first, of any kind. With
      one other modal open, two requests still leave one selection modal;
      two selection modals stay open only when two other modals came first,
      as when two scanned buttons each requested the API-key entry modal. */
  lemma EarlierModalsAbsorbRequests(first: PostRecord, second: PostRecord)
    ensures ShowSheetSelectionModal(ShowSheetSelectionModal([ApiKeyEntry], first), second)
      == [SheetSelection(second)]
    ensures ShowSheetSelectionModal(ShowSheetSelectionModal([ApiKeyEntry, ApiKeyEntry], first), second)
      == [SheetSelection(first), SheetSelection(second)]
  {
  }

  /** One like click: the guard, then the modal it may open. */
  function OnLikeClick(open: seq<Modal>, article: Option<ArticleView>): seq<Modal> {
    match HandleLikeButtonClick(article)
    case OpenModal(post) => ShowSheetSelectionModal(open, post)
    case _ => open
  }

  /** At-most-once modal: once the article carries a saved mark, no number
      of further like clicks changes the open modals. */
  lemma {:induction false} SavedArticleNeverReopens(open: seq<Modal>, article: ArticleView, clicks: nat)
    requires article.savedMarks > 0
    ensures Repeat(open, article, clicks) == open
  {
    if clicks > 0 {
      SavedArticleNeverReopens(open, article, clicks - 1);
    }
  }

  /** `clicks` like clicks on the same article. */
  function Repeat(open: seq<Modal>, article: ArticleView, clicks: nat): seq<Modal> {
    if clicks == 0 then open else OnLikeClick(Repeat(open, article, clicks - 1), Some(article))
  }
}

=== FILE: options.dfy ===
/** An optional value: `None` stands for JavaScript's `undefined`/`null`,
    kept distinct from any present value such as the empty string. */
module Options {

  datatype Option<T> = None | Some(value: T) {

    /** The value if present, otherwise `default`. */
    function GetOr(default: T): T {
      match this
      case Some(v) => v
      case None => default
    }
  }
}

=== FILE: session.dfy ===
/** The session / login cache (`accountInfo`, `checkLoginStatus`,
    `getApiToken`, `getAccountInfo`) as a state machine over the cached
    account record. */
module Session {
  import opened Options
  import opened JsString
  import opened Http

  /** How long a positive login verdict is trusted, in milliseconds. */
  const FreshnessWindowMs := 5 * 60 * 1000

  /** The cached account record; `lastChecked` is a `Date.now()` value. */
  datatype Account = Account(isLoggedIn: bool, accountName: string, accountId: string, lastChecked: int)

  /** The record the script starts with. */
  const InitialAccount := Account(false, "", "", 0)

  /** What `getAccountInfo` hands to the modals: the record without its time stamp. */
  datatype AccountView = AccountView(isLoggedIn: bool, accountName: string, accountId: string)

  /** The result of `getApiToken`, and whether it asked for the API-key entry modal. */
  datatype TokenLookup = TokenLookup(token: Option<string>, keyModalRequested: bool)

  /** `getApiToken` over the stored `xsheet-api-key` value. */
  function GetApiToken(stored: Option<string>): (r: TokenLookup)
    ensures r.token.Some? <==> stored.Some? && !Blank(stored.value)
    ensures r.token.Some? ==> r.token.value != [] && r.token.value == Trim(stored.value)
    ensures r.token.Some? ==> !IsJsWhitespace(r.token.value[0]) && !IsJsWhitespace(r.token.value[|r.token.value| - 1])
    ensures r.keyModalRequested <==> r.token.None?
  {
    if stored.Some? && stored.value != [] && Trim(stored.value) != [] then
      TokenLookup(Some(Trim(stored.value)), false)
    else
      TokenLookup(None, true)
  }

  /** The `user` object of the profile payload. */
  datatype User = User(name: Option<string>, username: Option<string>, id: Option<string>)

  /** The profile body: not JSON (so `response.json()` throws), or JSON
      with its `success` flag and `user` object. */
  datatype ProfileBody = ProfileNotJson | ProfileJson(success: bool, user: Option<User>)

  /** One call of `checkLoginStatus`: the new record, the promised boolean,
      whether the profile endpoint was fetched, whether the API-key error
      modal and the API-key entry modal were requested. */
  datatype LoginStep = LoginStep(
    account: Account, loggedIn: bool, fetched: bool, errorModal: bool, keyModal: bool)

  /** The record with the identity cleared; `lastChecked` untouched. */
  function Cleared(a: Account): Account {
    a.(isLoggedIn := false, accountName := "", accountId := "")
  }

  /** A positive verdict that is still within the freshness window at `now`. */
  predicate FreshPositive(a: Account, now: int) {
    a.isLoggedIn && now - a.lastChecked < FreshnessWindowMs
  }

  /** The profile reply that logs the user in: `ok`, JSON, `success` and a `user`. */
  predicate AcceptedProfile(profile: Reply<ProfileBody>) {
    && profile.Answered? && IsOk(profile.status)
    && profile.body.ProfileJson? && profile.body.success && profile.body.user.Some?
  }

  /** A fetch that ends in the script's catch block: the fetch threw, or an
      `ok` body was not JSON. */
  predicate ProfileThrows(profile: Reply<ProfileBody>) {
    profile.Threw? || (IsOk(profile.status) && profile.body.ProfileNotJson?)
  }

  /** `checkLoginStatus` at time `now`, with the stored API key and the
      outcome the profile request would have. */
  function CheckLoginStatus(a: Account, stored: Option<string>, now: int, profile: Reply<ProfileBody>): (r: LoginStep)
    // no usable token: identity cleared, no fetch, time stamp kept, key modal asked for
    ensures GetApiToken(stored).token.None? ==>
      && !r.loggedIn && !r.fetched && r.keyModal && !r.errorModal
      && r.account == Cleared(a)
    // a token is present: the key modal is never requested here
    ensures GetApiToken(stored).token.Some? ==> !r.keyModal
    // only a fresh positive verdict avoids the network; a negative one never does
    ensures r.fetched <==> GetApiToken(stored).token.Some? && !FreshPositive(a, now)
    ensures GetApiToken(stored).token.Some? && FreshPositive(a, now) ==> r.loggedIn && r.account == a
    // the promised boolean is the cached flag, and a logged-out record has no identity
    ensures r.loggedIn == r.account.isLoggedIn
    ensures !r.loggedIn ==> r.account.accountName == "" && r.account.accountId == ""
    // a positive verdict is always fresh at `now`
    ensures r.loggedIn ==> now - r.account.lastChecked < FreshnessWindowMs
    // after a fetch: logged in exactly when the profile was accepted
    ensures r.fetched ==> (r.loggedIn <==> AcceptedProfile(profile))
    ensures r.fetched && AcceptedProfile(profile) ==>
      var u := profile.body.user.value;
      && r.account.accountName == OrElse(u.name, OrElse(u.username, ""))
      && r.account.accountId == OrElse(u.id, "")
    // the time stamp moves to `now` after every fetch that did not throw
    ensures r.account.lastChecked == (if r.fetched && !ProfileThrows(profile) then now else a.lastChecked)
    // the error modal is requested exactly for a fetched 401
    ensures r.errorModal <==> r.fetched && profile.Answered? && profile.status == Unauthorized
  {
    var lookup := GetApiToken(stored);
    if lookup.token.None? then
      LoginStep(Cleared(a), false, false, false, true)
    else if FreshPositive(a, now) then
      LoginStep(a, true, false, false, false)
    else
      match profile
      case Threw(_) => LoginStep(Cleared(a), false, true, false, false)
      case Answered(status, body) =>
        if IsOk(status) then
          match body
          case ProfileNotJson => LoginStep(Cleared(a), false, true, false, false)
          case ProfileJson(success, user) =>
            if success && user.Some? then
              var u := user.value;
              LoginStep(Account(true, OrElse(u.name, OrElse(u.username, "")), OrElse(u.id, ""), now), true, true, false, false)
            else
              LoginStep(Cleared(a).(lastChecked := now), false, true, false, false)
        else if status == Unauthorized then
          LoginStep(Cleared(a).(lastChecked := now), false, true, true, false)
        else
          LoginStep(Cleared(a).(lastChecked := now), false, true, false, false)
  }

  /** `getAccountInfo`. */
  function GetAccountInfo(a: Account): AccountView {
    AccountView(a.isLoggedIn, a.accountName, a.accountId)
  }

  /** What the modals display after a login check agrees with its result,
      and a logged-out view carries no identity. */
  lemma AccountInfoAfterCheck(a: Account, stored: Option<string>, now: int, profile: Reply<ProfileBody>)
    ensures var r := CheckLoginStatus(a, stored, now, profile);
      var v := GetAccountInfo(r.account);
      && v.isLoggedIn == r.loggedIn
      && (!r.loggedIn ==> v == AccountView(false, "", ""))
  {
  }

  /** With time moving forward, `lastChecked` never decreases and never
      passes the current time. */
  lemma LastCheckedMonotone(a: Account, stored: Option<string>, now: int, profile: Reply<ProfileBody>)
    requires a.lastChecked <= now
    ensures var r := CheckLoginStatus(a, stored, now, profile);
      a.lastChecked <= r.account.lastChecked <= now
  {
  }

  /** A successful verification is reused without a fetch by every later
      call within five minutes of it. */
  lemma SuccessIsCached(a: Account, stored: Option<string>, now: int, profile: Reply<ProfileBody>,
                        stored2: Option<string>, later: int, profile2: Reply<ProfileBody>)
    requires CheckLoginStatus(a, stored, now, profile).fetched
    requires CheckLoginStatus(a, stored, now, profile).loggedIn
    requires GetApiToken(stored2).token.Some?
    requires now <= later < now + FreshnessWindowMs
    ensures var r1 := CheckLoginStatus(a, stored, now, profile);
      var r2 := CheckLoginStatus(r1.account, stored2, later, profile2);
      !r2.fetched && r2.loggedIn && r2.account == r1.account
  {
  }

  /** Negative verdicts are never cached: after any call that returned
      false, the next call with a token goes to the network, whatever the
      cause (401, other status, bad payload or a throw). */
  lemma NegativeNeverCached(a: Account, stored: Option<string>, now: int, profile: Reply<ProfileBody>,
                            stored2: Option<string>, later: int, profile2: Reply<ProfileBody>)
    requires !CheckLoginStatus(a, stored, now, profile).loggedIn
    requires GetApiToken(stored2).token.Some?
    ensures CheckLoginStatus(CheckLoginStatus(a, stored, now, profile).account, stored2, later, profile2).fetched
  {
  }

  /** Starting from the initial record, the first call with a token always
      fetches the profile. */
  lemma FirstCheckFetches(stored: Option<string>, now: int, profile: Reply<ProfileBody>)
    requires GetApiToken(stored).token.Some?
    ensures CheckLoginStatus(InitialAccount, stored, now, profile).fetched
  {
  }
}

=== FILE: watcher.dfy ===
/** The change-watcher scan (`checkForLikeButtons`): every like control on
    the page is handed to the attachment step once, the first time a scan
    sees it; the `data-xsheet-processed` mark is modelled as a set of
    element identities. */
module Watcher {

  /** Identity of a DOM element. */
  type ElementId = nat

  /** The processed marks after a scan, and the buttons that got a click
      handler and a classification-UI request, in the order they got them. */
  datatype ScanResult = ScanResult(processed: set<ElementId>, attached: seq<ElementId>)

  predicate Distinct(s: seq<ElementId>) {
    forall i, j :: 0 <= i < j < |s| ==> s[i] != s[j]
  }

  /** One scan over the buttons `querySelectorAll` returns, in document
      order: each unmarked button is marked, then attached. */
  function Scan(processed: set<ElementId>, buttons: seq<ElementId>): (r: ScanResult)
    ensures r.processed == processed + set b | b in buttons
    ensures Distinct(r.attached)
    ensures forall i :: 0 <= i < |r.attached| ==> r.attached[i] in buttons && r.attached[i] !in processed
    ensures forall b :: b in buttons && b !in processed ==> b in r.attached
  {
    if buttons == [] then ScanResult(processed, [])
    else
      var prior := buttons[..|buttons| - 1];
      var b := buttons[|buttons| - 1];
      var prev := Scan(processed, prior);
      assert buttons == prior + [b];
      if b in prev.processed then prev
      else ScanResult(prev.processed + {b}, prev.attached + [b])
  }

  /** A sequence of scans, one per batch of added nodes the observer reports
      (the first batch is the initial scan at start-up). */
  function Run(processed: set<ElementId>, batches: seq<seq<ElementId>>): (r: ScanResult)
    ensures Distinct(r.attached)
    ensures forall i :: 0 <= i < |r.attached| ==> r.attached[i] !in processed
    ensures forall i :: 0 <= i < |r.attached| ==> r.attached[i] in r.processed
    ensures forall k, b :: 0 <= k < |batches| && b in batches[k] && b !in processed ==> b in r.attached
    ensures forall i :: 0 <= i < |r.attached| ==>
      exists k :: 0 <= k < |batches| && r.attached[i] in batches[k]
    ensures r.processed == processed + set k, b | 0 <= k < |batches| && b in batches[k] :: b
    decreases |batches|
  {
    if batches == [] then ScanResult(processed, [])
    else
      var first := Scan(processed, batches[0]);
      var rest := Run(first.processed, batches[1..]);
      assert forall k :: 1 <= k < |batches| ==> batches[k] == batches[1..][k - 1];
      ScanResult(rest.processed, first.attached + rest.attached)
  }

  /** Rescanning the same buttons attaches nothing. */
  lemma ScanIdempotent(processed: set<ElementId>, buttons: seq<ElementId>)
    ensures var once := Scan(processed, buttons);
      Scan(once.processed, buttons) == ScanResult(once.processed, [])
  {
    var once := Scan(processed, buttons);
    var twice := Scan(once.processed, buttons);
    if twice.attached != [] {
      assert twice.attached[0] in buttons;
    }
  }
}
